=== FILE: README.md ===
# ThreeToGo game session in Dafny

This project models the game-session core of ThreeToGo, a single-player
tile-matching game. Tokens have a colour and a shape and sit in a bounded
circular list. The player can insert tokens at either end. The player can
also pick a token and group its colour or its shape to the left. Runs of
matching tokens score points.

The model covers the following:

- the data model of `src/threetogo.h`:
  - colour and shape codes;
  - `MAX_TOKENS`;
  - the circular `Liste`, whose handle is the last node, together with its same-colour and same-shape chains;
  - the `Game` record;
- `game_init`;
- the per-click body of `game_loop`, modelled as a pure step function.

Modules, leaves first:

- `Wrappers` (`wrappers.dfy`): `Option`.
- `Tokens` (`tokens.dfy`): `Color`, `Shape`, their `int` codes, `MaxTokens`, and `Token`. A token's `id` stands for the node's address.
- `Liste` (`liste.dfy`): a row is a `seq<Token>` in list order.
  - Positions follow `next` round the ring, starting from the handle (`Last`). `Walk` follows `next` k times.
  - `NextSame` and `PrevSame` give the `next_color`/`previous_color` neighbour (or the `next_shape`/`previous_shape` neighbour) of a position.
- `Board` (`board.dfy`): the operations whose bodies are not part of this model. They are fields of an `Ops` record of total functions:
  - `add_left`, `add_right`;
  - `shift_commoncolor_left`, `shift_commonshape_left`;
  - `check_combinations`;
  - `button_add_check`, `token_select_check`;
  - `mouse_to_square(0, 0)`.

  The model assumes nothing about them beyond their signatures. Their documented result ranges (`DocumentedRanges`) and their expected size behaviour (`SizeDiscipline`) appear only as hypotheses of the lemmas that name them.
- `Session` (`session.dfy`): the `Game` record, `GameInit` (`game_init`), and the invariant `Consistent`. `Consistent` says the cached `nb_tokens` equals the list length and `combo` is not negative.
- `Loop` (`loop.dfy`): the loop's locals are the waiting flag with the picked token (`Phase`) and the stored cell `cible` (`anchor`). One mouse press is handled as follows:
  - `Step` runs either `FirstClick` (add buttons, then `Pick`) or `SecondClick`.
  - `Resolve` then runs on a committed move, with the combo bookkeeping and the sounds it plays (`MoveCues`).
  - `Run` folds `Step` over the clicks processed before time runs out.

## Model

| member | source | states |
|---|---|---|
| Tokens.ColorCode | src/threetogo.h:13-20 | every colour has one of the codes 0..3 |
| Tokens.ShapeCode | src/threetogo.h:22-29 | every shape has one of the codes 0..3 |
| Liste.Last | src/threetogo.h:44-49 | the handle of a non-empty list is a node of the list; `LastNextIsFirst` and `WalkFromLast` pin it as the last |
| Liste.Next | src/threetogo.h:54 | following `next` from a node reaches a node of the list |
| Loop.LoopStart | src/threetogo.c:50-53 | the loop starts with `cible = {0, 0}` and the waiting flag clear |
| Loop.SoundSlot | src/threetogo.c:134-161 | combo level k plays `sounds[k-2]`, which is one of slots 0..5 exactly when 2 <= k <= 7; the first-score cue plays slot 6 and the big-win cue slot 7 |
| Session.Consistent | src/threetogo.c:129-164 | the invariant each resolution restores: `nb_tokens` is the length of the main list, and the combo counter is not negative |
| Board.DocumentedRanges | src/graphique.h:78-92 | `button_add_check` answers 0, 1 or 2, and `token_select_check` answers 0 or a position from 1 to the token count it is given |
| Tokens.ColorOfCode | src/threetogo.h:13-20 | exactly the codes 0..3 are colours, and decoding then re-encoding gives the code back |
| Tokens.ShapeOfCode | src/threetogo.h:22-29 | exactly the codes 0..3 are shapes, and decoding then re-encoding gives the code back |
| Tokens.ColorCodeRoundTrip | src/threetogo.h:13-20 | every colour's code decodes to that colour, so the four codes are distinct |
| Tokens.ShapeCodeRoundTrip | src/threetogo.h:22-29 | every shape's code decodes to that shape |
| Liste.Walk | src/threetogo.c:97-100 | following `next` any number of times from a node stays on a node of the list |
| Liste.LastNextIsFirst | src/threetogo.h:44-49 | the handle is the last node, and its `next` is the first node |
| Liste.WalkIsAhead | src/threetogo.c:97-100 | k <= n steps of `next` move k positions forward round the ring |
| Liste.WalkSplit | src/threetogo.c:97-100 | a walk of a + b steps is a walk of a steps followed by one of b steps |
| Liste.WalkPeriodic | src/threetogo.c:97-100 | n extra steps go once round the ring, so counts beyond the length wrap round |
| Liste.Reduce | src/threetogo.c:98-100 | a step count taken round a ring of n nodes lands on a position below n |
| Liste.WalkFromLastWraps | src/threetogo.c:98-100 | from the handle, any k >= 1 steps reach the node k - 1 positions after the first, whole turns taken off |
| Liste.WalkFromLast | src/threetogo.c:95-101 | from the handle, k steps (1 <= k <= n) reach the k-th node; n steps reach the handle itself, which is what the `check == nb_tokens` shortcut returns |
| Liste.ForwardGapFrom | src/threetogo.h:55 | the forward search finds the nearest position sharing the attribute, and no position before it does |
| Liste.BackwardGapFrom | src/threetogo.h:56 | the backward search finds the nearest position sharing the attribute, and no position before it does |
| Liste.NextSame | src/threetogo.h:55-57 | the `next_color`/`next_shape` neighbour has the same colour/shape, and no token strictly between them does |
| Liste.PrevSame | src/threetogo.h:56-58 | the `previous_color`/`previous_shape` neighbour has the same colour/shape, and no token strictly between them does |
| Liste.PrevOfNext | src/threetogo.h:54-58 | the previous same-attribute neighbour of the next one is the token itself |
| Liste.NextOfPrev | src/threetogo.h:54-58 | the next same-attribute neighbour of the previous one is the token itself |
| Session.GameInit | src/threetogo.c:9-33 | initialisation fails iff a list allocation fails or `init_queue` does not return 1; on success score, combo, timer and nb_tokens are 0, the main list is empty, and the game is consistent and within capacity |
| Session.InitCode | src/threetogo.h:96-101 | `game_init` returns 0 on failure and 1 otherwise |
| Loop.MoveCues | src/threetogo.c:134-161 | a combo cue plays iff the gain is non-zero and the new combo is in 2..7, and it is that level's sound; at most two sounds play, each at most once; the first-score cue plays iff the old score was 0 and the gain is positive; otherwise the big-win cue plays iff combo < 2 and the gain is at least 1000; the two never both play; every cue indexes one of the 8 sounds |
| Loop.Resolve | src/threetogo.c:126-166 | combinations are checked with multiplier combo + 1; the combo is reset to 0 exactly on a zero gain and otherwise grows by exactly 1; the score grows by the gain; nb_tokens equals the new list length; the queue and timer are untouched |
| Loop.AddButton | src/threetogo.c:75-90 | the buttons are ignored at capacity; button 1 inserts on the left and button 2 on the right; the click fails exactly when the chosen insertion does not return 1 |
| Loop.SelectedPosition | src/threetogo.c:93-101 | the picked position is a node of the list; with an accurate count, an answer k in 1..n picks the k-th token; an answer beyond the list length wraps round the ring (`Reduce`) |
| Loop.Pick | src/threetogo.c:92-104 | a non-zero answer of `token_select_check` sets the waiting flag and a zero answer leaves it clear; on a non-empty list the picked token is the one at `SelectedPosition`; on an empty list the picked token is NULL, and the code dereferences it exactly when the answer is positive and differs from `nb_tokens` (a walk of at least one step) |
| Loop.FirstClick | src/threetogo.c:72-105 | the clicked cell becomes the anchor; only an insertion commits a move, and then the list and queue are those the insertion returned; nothing else changes; the pick walks the list as it is after the insertion, with the old count; a picked token is NULL exactly when the list is empty, and otherwise is in the list; with an accurate count, an answer k picks the list's k-th token; without an insertion, the click dereferences NULL exactly on an empty list with a positive answer other than `nb_tokens` |
| Loop.PickOnEmptyListKeepsNull | src/threetogo.c:95-103 | on an empty list a negative answer walks no step: the loop waits for a second click holding a NULL token |
| Loop.SecondClick | src/threetogo.c:106-123 | the cell above the anchor groups by colour and the cell below groups by shape; any other cell does nothing; the waiting flag is always cleared and the anchor reset |
| Loop.Step | src/threetogo.c:70-166 | only an idle click below capacity can fail; a second click always returns to idle; without a move the game is unchanged and no sound plays; a committed move is resolved by `Resolve` on the handled game (whose score and combo are still the old ones), which fixes the new game and the sounds played; consistency is preserved |
| Loop.StepCapacityGuard | src/threetogo.c:76-90 | at capacity, a click neither fails nor inserts, and the game is unchanged |
| Loop.StepFailsOnlyOnAdd | src/threetogo.c:76-90 | `game_loop` returns 0 iff an idle click below capacity hits an add button whose insertion reports failure |
| Loop.StepKeepsCapacity | src/threetogo.h:37-38 | given the size behaviour of the board operations, the list never exceeds `MAX_TOKENS` tokens |
| Loop.StepNeverDereferencesNull | src/graphique.h:85-92 | from a consistent game, when the hit tests answer within their documented ranges AND the board operations keep `SizeDiscipline` (a hypothesis no source file documents: a successful insertion adds exactly one token), a pick never follows the NULL handle of an empty list |
| Loop.LoopCode | src/threetogo.h:109-117 | `game_loop` returns 0 on error and 1 otherwise |
| Loop.Run | src/threetogo.c:62-170 | over any sequence of clicks, a consistent game stays consistent |
| Loop.RunAppend | src/threetogo.c:62-170 | processing clicks a then b is the same as processing a + b, including the sounds played |
| Loop.RunKeepsCapacity | src/threetogo.h:37-38 | starting from a consistent game within `MAX_TOKENS`, and given `SizeDiscipline` of the board operations, the list stays within `MAX_TOKENS` over any sequence of clicks |
| Loop.RunNeverCrashes | src/threetogo.c:93-101 | under the documented ranges and `SizeDiscipline` of the board operations, a run from a consistent game never dereferences NULL |
| Loop.InitialLoopState | src/threetogo.c:45-53 | a freshly initialised game enters the loop idle, consistent and with an empty list |

## Behaviour of the code worth noting

- `check_combinations` receives `combo + 1` as its multiplier, and its result is added to the score unchanged (src/threetogo.c:127, 163).
- A combo sound plays only for the levels 2 to 7; higher levels play none (src/threetogo.c:134-153).
- At capacity, `button_add_check` is not consulted, but the click is still offered to `token_select_check` (src/threetogo.c:76-104).
- One first click runs both the add-button test and the token test, so a single press could insert a token and pick one (src/threetogo.c:76-104).
- After an insertion in the same click, the `check == nb_tokens` shortcut compares with a count that is one behind until the move is resolved (src/threetogo.c:96, 164). The shortcut agrees with the walk only when the count is accurate (`SelectedPosition`).
- On an empty list the picked token starts as the NULL handle (src/threetogo.c:95). A positive answer other than `nb_tokens` walks from it and dereferences NULL; the model reports this as the `NullDereference` outcome. A negative answer, or one equal to `nb_tokens`, walks no step, and the loop waits with a NULL token, which the model passes on to the shift operations as `None`.

## Left out

- The bodies of `add_left`, `add_right`, `shift_commoncolor_left`, `shift_commonshape_left`, `check_combinations`, `init_queue`, `length` and `free_liste`: `moteur.h` and `token.h` are not part of this model. They are uninterpreted fields of `Ops`, and `length` is the sequence length.
- `src/graphique.h`: drawing, `mouse_to_square`, and the bodies of `button_add_check` and `token_select_check` are not part of this model. Clicks arrive as cells, and the reset cell `mouse_to_square(0, 0)` is `Ops.origin`.
- Wall-clock time: `gettimeofday`, `time_usec`, the loop condition against `DUREE_MAX`, and the float `timer` updates. `Run` takes the clicks that arrive before time runs out, and `timer` is carried unchanged.
- MLV event polling, non-press events, screen refresh and frame-rate delay. Sound playback is replaced by the emitted `Cue` sequence.
- Heap management: `malloc`/`free`, `game_free`, and the missing release of the lists when `init_queue` fails. Allocation success is a boolean parameter of `GameInit`.
- The state left behind by a failed insertion: `game_loop` returns 0 and the game is abandoned, so `LoopFailed` carries no state.
- `src/main.c`, `title_screen` and `game_over`: start-up glue and screens outside the session.
- Loop.Resolve: does not model 32-bit `int` overflow of `score` and `combo`, because both are unbounded integers here.
- Liste.NextSame: the order of the same-colour and same-shape chains is taken to follow the list order. Their maintenance lives in `token.h`, which is not part of this model.
- Loop.SecondClick: the picked token is passed on as a value. If one press both inserted and picked, `check_combinations` may free the picked node before the second click, and the code then hands a dangling pointer to `shift_common*_left`; the model hands over a token that may no longer be in the list.
- Loop.StepNeverDereferencesNull, Loop.RunNeverCrashes, Loop.StepKeepsCapacity, Loop.RunKeepsCapacity: hold only under `SizeDiscipline`, an assumption about the board operations whose bodies are not part of this model; an insertion that reports success but shrinks the list would let the one-behind count walk a NULL handle.

=== FILE: board.dfy ===
/** The operations `game_loop` calls but whose bodies live elsewhere
    (`moteur.h`, `token.h`, `graphique.h`). They are given to the model as
    total functions it knows nothing about beyond their signatures; the
    documented result ranges appear only as hypotheses of the lemmas that
    need them. */
module Board {
  import opened Wrappers
  import opened Tokens
  import opened Liste

  /** A cell of the window grid (`Case`), as produced by `mouse_to_square`. */
  datatype Cell = Cell(col: int, lig: int)

  /** Result of `add_left` / `add_right`: the status code (1 on success) and
      the queue and main list the call leaves behind. */
  datatype AddOutcome = AddOutcome(code: int, queue: Row, row: Row)

  /** Result of `check_combinations`: the points gained and the main list
      after the matched tokens are removed. */
  datatype Combination = Combination(gain: int, row: Row)

  /** The collaborators of one game session. */
  datatype Ops = Ops(
    /** `button_add_check`: 0 none, 1 left button, 2 right button. */
    buttonAddCheck: Cell -> int,
    /** `token_select_check(nb_tokens, cell, list)`: 0, or the 1-based
        position of the clicked token. */
    tokenSelectCheck: (int, Cell, Row) -> int,
    /** `add_left(queue, list)` and `add_right(queue, list)`. */
    addLeft: (Row, Row) -> AddOutcome,
    addRight: (Row, Row) -> AddOutcome,
    /** `shift_commoncolor_left(list, token)` and `shift_commonshape_left`;
        the token pointer they receive may be NULL (`None`). */
    shiftCommonColorLeft: (Row, Option<Token>) -> Row,
    shiftCommonShapeLeft: (Row, Option<Token>) -> Row,
    /** `check_combinations(list, multiplier)`. */
    checkCombinations: (Row, int) -> Combination,
    /** `mouse_to_square(0, 0)`, the cell the anchor is reset to. */
    origin: Cell
  )

  /** The result ranges documented for the hit tests: `button_add_check`
      answers 0, 1 or 2, and `token_select_check` answers 0 or a position
      between 1 and the token count it is given. */
  ghost predicate DocumentedRanges(ops: Ops)
  {
    && (forall c :: 0 <= ops.buttonAddCheck(c) <= 2)
    && (forall nb, c, row :: 0 <= ops.tokenSelectCheck(nb, c, row) <= if nb < 0 then 0 else nb)
  }

  /** Size behaviour the board operations are expected to have: a successful
      insertion adds exactly one token, an alignment keeps the tokens'
      number, and resolving combinations never adds tokens. */
  ghost predicate SizeDiscipline(ops: Ops)
  {
    && (forall q, row :: ops.addLeft(q, row).code == 1 ==> |ops.addLeft(q, row).row| == |row| + 1)
    && (forall q, row :: ops.addRight(q, row).code == 1 ==> |ops.addRight(q, row).row| == |row| + 1)
    && (forall row, t :: |ops.shiftCommonColorLeft(row, t)| == |row|)
    && (forall row, t :: |ops.shiftCommonShapeLeft(row, t)| == |row|)
    && (forall row, m :: |ops.checkCombinations(row, m).row| <= |row|)
  }
}

=== FILE: liste.dfy ===
/** The circular singly-linked `Liste` of src/threetogo.h.

    A row of tokens is a sequence in list order. The C handle points at the
    LAST node, whose `next` is the first node, so a position `i` of a row of
    `n` tokens is followed by `i + 1`, and the last position by `0`. The
    same-colour and same-shape chains (`next_color`, `previous_color`,
    `next_shape`, `previous_shape`) are derived from the row: the next token
    of the same colour is the first one found going forward round the ring. */
module Liste {
  import opened Tokens

  type Row = seq<Token>

  /** Position of the node the handle points at. */
  function Last(n: nat): (i: nat)
    requires n > 0
    ensures i < n
  {
    n - 1
  }

  /** Position reached by following `next` once. */
  function Next(n: nat, i: nat): (j: nat)
    requires i < n
    ensures j < n
  {
    if i + 1 == n then 0 else i + 1
  }

  /** Position reached by following `next` `k` times. */
  function Walk(n: nat, from: nat, k: nat): (j: nat)
    requires from < n
    ensures j < n
    decreases k
  {
    if k == 0 then from else Walk(n, Next(n, from), k - 1)
  }

  /** The handle's `next` is the first node of the list. */
  lemma LastNextIsFirst(n: nat)
    requires n > 0
    ensures Next(n, Last(n)) == 0
  {
  }

  /** Following `next` `k <= n` times moves `k` positions forward round the ring. */
  lemma {:induction false} WalkIsAhead(n: nat, from: nat, k: nat)
    requires from < n && k <= n
    ensures Walk(n, from, k) == Ahead(n, from, k)
    decreases k
  {
    if k > 0 {
      WalkIsAhead(n, Next(n, from), k - 1);
    }
  }

  /** Walking `a + b` steps is walking `a` steps and then `b` more. */
  lemma {:induction false} WalkSplit(n: nat, from: nat, a: nat, b: nat)
    requires from < n
    ensures Walk(n, from, a + b) == Walk(n, Walk(n, from, a), b)
    decreases a
  {
    if a > 0 {
      WalkSplit(n, Next(n, from), a - 1, b);
    }
  }

  /** A walk of `n` more steps goes once round the ring and changes nothing,
      so a count beyond the list length wraps round. */
  lemma WalkPeriodic(n: nat, from: nat, k: nat)
    requires from < n
    ensures Walk(n, from, n + k) == Walk(n, from, k)
  {
    WalkSplit(n, from, n, k);
    WalkIsAhead(n, from, n);
  }

  /** From the handle, `k` steps (1 <= k <= n) reach the k-th node (1-based);
      in particular `n` steps come back to the handle itself. */
  lemma WalkFromLast(n: nat, k: nat)
    requires 1 <= k <= n
    ensures Walk(n, Last(n), k) == k - 1
    ensures k == n ==> Walk(n, Last(n), k) == Last(n)
  {
    WalkIsAhead(n, Last(n), k);
  }

  /** The position `k` steps after the first node, round a ring of `n`
      nodes: `k` with whole turns taken off. */
  function Reduce(n: nat, k: nat): (r: nat)
    requires n > 0
    ensures r < n
    decreases k
  {
    if k < n then k else Reduce(n, k - n)
  }

  /** From the handle, any count `k >= 1` of steps reaches the node `k - 1`
      positions after the first one, going round as often as needed. */
  lemma {:induction false} WalkFromLastWraps(n: nat, k: nat)
    requires n > 0 && k >= 1
    ensures Walk(n, Last(n), k) == Reduce(n, k - 1)
    decreases k
  {
    if k <= n {
      WalkFromLast(n, k);
    } else {
      WalkPeriodic(n, Last(n), k - n);
      WalkFromLastWraps(n, k - n);
    }
  }

  /** Position `d` steps after `i` round a ring of `n` nodes (0 <= d <= n). */
  function Ahead(n: nat, i: nat, d: nat): (j: nat)
    requires i < n && d <= n
    ensures j < n
  {
    if i + d < n then i + d else i + d - n
  }

  /** Position `d` steps before `i` round a ring of `n` nodes (0 <= d <= n). */
  function Behind(n: nat, i: nat, d: nat): (j: nat)
    requires i < n && d <= n
    ensures j < n
  {
    if d <= i then i - d else i + n - d
  }

  /** Tokens at positions `i` and `j` agree on attribute `a`. */
  predicate SameKey(row: Row, a: Attribute, i: nat, j: nat)
    requires i < |row| && j < |row|
  {
    Key(row[i], a) == Key(row[j], a)
  }

  /** Distance, going forward from `i`, to the nearest position that agrees
      with `i` on `a`, given that none of the first `d - 1` positions does. */
  function ForwardGapFrom(row: Row, a: Attribute, i: nat, d: nat): (g: nat)
    requires i < |row| && 1 <= d <= |row|
    requires forall e :: 1 <= e < d ==> !SameKey(row, a, i, Ahead(|row|, i, e))
    ensures d <= g <= |row|
    ensures SameKey(row, a, i, Ahead(|row|, i, g))
    ensures forall e :: 1 <= e < g ==> !SameKey(row, a, i, Ahead(|row|, i, e))
    decreases |row| - d
  {
    if SameKey(row, a, i, Ahead(|row|, i, d)) then d
    else ForwardGapFrom(row, a, i, d + 1)
  }

  /** Distance, going backward from `i`, to the nearest position that agrees
      with `i` on `a`, given that none of the first `d - 1` positions does. */
  function BackwardGapFrom(row: Row, a: Attribute, i: nat, d: nat): (g: nat)
    requires i < |row| && 1 <= d <= |row|
    requires forall e :: 1 <= e < d ==> !SameKey(row, a, i, Behind(|row|, i, e))
    ensures d <= g <= |row|
    ensures SameKey(row, a, i, Behind(|row|, i, g))
    ensures forall e :: 1 <= e < g ==> !SameKey(row, a, i, Behind(|row|, i, e))
    decreases |row| - d
  {
    if SameKey(row, a, i, Behind(|row|, i, d)) then d
    else BackwardGapFrom(row, a, i, d + 1)
  }

  /** The `next_color` (a = ByColor) or `next_shape` (a = ByShape) neighbour
      of position `i`: it shares the attribute, and no token strictly between
      them (going forward) does. A token alone in its ring is its own
      neighbour. */
  function NextSame(row: Row, a: Attribute, i: nat): (j: nat)
    requires i < |row|
    ensures j < |row|
    ensures Key(row[j], a) == Key(row[i], a)
    ensures exists g :: 1 <= g <= |row| && j == Ahead(|row|, i, g)
                        && (forall e :: 1 <= e < g ==> !SameKey(row, a, i, Ahead(|row|, i, e)))
  {
    var g := ForwardGapFrom(row, a, i, 1);
    Ahead(|row|, i, g)
  }

  /** The `previous_color` or `previous_shape` neighbour of position `i`. */
  function PrevSame(row: Row, a: Attribute, i: nat): (j: nat)
    requires i < |row|
    ensures j < |row|
    ensures Key(row[j], a) == Key(row[i], a)
    ensures exists g :: 1 <= g <= |row| && j == Behind(|row|, i, g)
                        && (forall e :: 1 <= e < g ==> !SameKey(row, a, i, Behind(|row|, i, e)))
  {
    var g := BackwardGapFrom(row, a, i, 1);
    Behind(|row|, i, g)
  }

  /** Going `d` forward then `e <= d` back is going `d - e` forward. */
  lemma BehindAhead(n: nat, i: nat, d: nat, e: nat)
    requires i < n && e <= d <= n
    ensures Behind(n, Ahead(n, i, d), e) == Ahead(n, i, d - e)
  {
  }

  /** Going `d` back then `e <= d` forward is going `d - e` back. */
  lemma AheadBehind(n: nat, i: nat, d: nat, e: nat)
    requires i < n && e <= d <= n
    ensures Ahead(n, Behind(n, i, d), e) == Behind(n, i, d - e)
  {
  }

  /** `previous_color(next_color(t)) == t` (and likewise for shapes): the
      backward chain undoes the forward chain. */
  lemma PrevOfNext(row: Row, a: Attribute, i: nat)
    requires i < |row|
    ensures PrevSame(row, a, NextSame(row, a, i)) == i
  {
    var n := |row|;
    var j := NextSame(row, a, i);
    var g :| 1 <= g <= n && j == Ahead(n, i, g)
      && forall e :: 1 <= e < g ==> !SameKey(row, a, i, Ahead(n, i, e));
    var k := PrevSame(row, a, j);
    var h :| 1 <= h <= n && k == Behind(n, j, h)
      && forall e :: 1 <= e < h ==> !SameKey(row, a, j, Behind(n, j, e));
    BehindAhead(n, i, g, g);
    assert Behind(n, j, g) == i;
    if h < g {
      BehindAhead(n, i, g, h);
      assert false;
    } else if h > g {
      assert false;
    }
  }

  /** `next_color(previous_color(t)) == t` (and likewise for shapes). */
  lemma NextOfPrev(row: Row, a: Attribute, i: nat)
    requires i < |row|
    ensures NextSame(row, a, PrevSame(row, a, i)) == i
  {
    var n := |row|;
    var j := PrevSame(row, a, i);
    var g :| 1 <= g <= n && j == Behind(n, i, g)
      && forall e :: 1 <= e < g ==> !SameKey(row, a, i, Behind(n, i, e));
    var k := NextSame(row, a, j);
    var h :| 1 <= h <= n && k == Ahead(n, j, h)
      && forall e :: 1 <= e < h ==> !SameKey(row, a, j, Ahead(n, j, e));
    AheadBehind(n, i, g, g);
    assert Ahead(n, j, g) == i;
    if h < g {
      AheadBehind(n, i, g, h);
      assert false;
    } else if h > g {
      assert false;
    }
  }
}

=== FILE: loop.dfy ===
/** The click handling of `game_loop` (src/threetogo.c), one mouse press at
    a time. Clicks arrive already converted to grid cells; timing, drawing
    and sound playback stay outside the model, and a played sound becomes a
    `Cue` in the step's output. */
module Loop {
  import opened Wrappers
  import opened Tokens
  import opened Liste
  import opened Board
  import opened Session

  /** `attend_clique == 0`, or `attend_clique == 1` with the token the
      first click picked (`token_clique`), which is NULL (`None`) when the
      pick was made on an empty list without walking it. */
  datatype Phase = Idle | AwaitingDirection(selected: Option<Token>)

  /** The game plus the loop's own locals: the waiting flag with the picked
      token, and the stored cell `cible` (the anchor of a second click). */
  datatype State = State(game: Game, phase: Phase, anchor: Cell)

  /** The loop's locals before the first event: nothing picked, `cible` is
      the cell {0, 0}. */
  function LoopStart(g: Game): State
  {
    State(g, Idle, Cell(0, 0))
  }

  /** A sound played after a committed move. */
  datatype Cue = ComboCue(level: int) | FirstScoreCue | BigWinCue

  /** The index into the `sounds` array a cue plays: the combo sounds
      occupy slots 0..5 (levels 2..7), then come the first-score and
      big-win sounds. */
  function SoundSlot(c: Cue): (slot: int)
    ensures c.ComboCue? ==> slot == c.level - 2 && (0 <= slot < 6 <==> 2 <= c.level <= 7)
    ensures !c.ComboCue? ==> 6 <= slot < 8
    ensures c == FirstScoreCue <==> slot == 6 && !c.ComboCue?
  {
    match c
    case ComboCue(k) => k - 2
    case FirstScoreCue => 6
    case BigWinCue => 7
  }

  /** The sounds a committed move plays, given the score before the move,
      the points gained and the combo counter after the move. A combo level
      from 2 to 7 plays its own sound; the first-score sound and the big-win
      sound exclude each other. */
  function MoveCues(oldScore: int, gain: int, combo: int): (cues: seq<Cue>)
    ensures (|cues| > 0 && cues[0].ComboCue?) <==> gain != 0 && 2 <= combo <= 7
    ensures forall c :: c in cues && c.ComboCue? ==> c.level == combo
    ensures FirstScoreCue in cues <==> oldScore == 0 && gain > 0
    ensures BigWinCue in cues <==> !(oldScore == 0 && gain > 0) && combo < 2 && gain >= 1000
    ensures !(FirstScoreCue in cues && BigWinCue in cues)
    ensures forall c :: c in cues ==> 0 <= SoundSlot(c) < 8
    ensures forall i :: 0 < i < |cues| ==> !cues[i].ComboCue?
    ensures |cues| <= 2
    ensures forall i, j :: 0 <= i < j < |cues| ==> cues[i] != cues[j]
  {
    var comboCue := if gain != 0 && 2 <= combo <= 7 then [ComboCue(combo)] else [];
    var scoreCue :=
      if oldScore == 0 && gain > 0 then [FirstScoreCue]
      else if combo < 2 && gain >= 1000 then [BigWinCue]
      else [];
    comboCue + scoreCue
  }

  /** The game and cues after a committed move has been resolved. */
  datatype Resolution = Resolution(game: Game, cues: seq<Cue>)

  /** Resolution of a committed move, `g.row` being the list after the move:
      combinations are checked with multiplier `combo + 1`; a zero gain
      breaks the combo, any other gain extends it by one; the gain is added
      to the score and the cached count is resynchronised with the list. */
  function Resolve(ops: Ops, g: Game): (r: Resolution)
    ensures var c := ops.checkCombinations(g.row, g.combo + 1);
              && r.game.row == c.row
              && r.game.score == g.score + c.gain
              && (c.gain == 0 ==> r.game.combo == 0)
              && (c.gain != 0 ==> r.game.combo == g.combo + 1)
              && (g.combo >= 0 ==> (r.game.combo == 0 <==> c.gain == 0))
              && r.cues == MoveCues(g.score, c.gain, r.game.combo)
    ensures r.game.nbTokens == |r.game.row|
    ensures r.game.queue == g.queue && r.game.timer == g.timer
    ensures g.combo >= 0 ==> Consistent(r.game)
  {
    var c := ops.checkCombinations(g.row, g.combo + 1);
    var combo := if c.gain == 0 then 0 else g.combo + 1;
    var cues := MoveCues(g.score, c.gain, combo);
    Resolution(g.(score := g.score + c.gain, combo := combo, nbTokens := |c.row|, row := c.row), cues)
  }

  /** What the add buttons do on a first click. */
  datatype AddStep = NoAdd | Added(queue: Row, row: Row) | AddFailed

  /** The add buttons: only looked at while the cached count is below
      `MAX_TOKENS`; answer 1 inserts on the left, 2 on the right, and an
      insertion that does not report 1 is a failure. */
  function AddButton(ops: Ops, g: Game, cell: Cell): (r: AddStep)
    ensures g.nbTokens >= MaxTokens ==> r.NoAdd?
    ensures r.NoAdd? <==> g.nbTokens >= MaxTokens || (ops.buttonAddCheck(cell) != 1 && ops.buttonAddCheck(cell) != 2)
    ensures r.AddFailed? <==>
              && g.nbTokens < MaxTokens
              && ((ops.buttonAddCheck(cell) == 1 && ops.addLeft(g.queue, g.row).code != 1)
                  || (ops.buttonAddCheck(cell) == 2 && ops.addRight(g.queue, g.row).code != 1))
    ensures r.Added? && ops.buttonAddCheck(cell) == 1 ==>
              r.queue == ops.addLeft(g.queue, g.row).queue && r.row == ops.addLeft(g.queue, g.row).row
    ensures r.Added? && ops.buttonAddCheck(cell) == 2 ==>
              r.queue == ops.addRight(g.queue, g.row).queue && r.row == ops.addRight(g.queue, g.row).row
  {
    if g.nbTokens >= MaxTokens then NoAdd
    else
      var button := ops.buttonAddCheck(cell);
      if button == 1 then
        var o := ops.addLeft(g.queue, g.row);
        if o.code != 1 then AddFailed else Added(o.queue, o.row)
      else if button == 2 then
        var o := ops.addRight(g.queue, g.row);
        if o.code != 1 then AddFailed else Added(o.queue, o.row)
      else NoAdd
  }

  /** The position of the token picked when `token_select_check` answers
      `check` on a non-empty list of `n` tokens: the handle's own node when
      `check` equals the cached count, otherwise the node `check` steps
      after the handle. With an accurate cached count this is the
      `check`-th token (1-based). */
  function SelectedPosition(nbTokens: int, n: nat, check: int): (i: nat)
    requires n > 0
    ensures i < n
    ensures check == nbTokens || check <= 0 ==> i == n - 1
    ensures 1 <= check <= n && check != nbTokens ==> i == check - 1
    ensures nbTokens == n && 1 <= check <= n ==> i == check - 1
    ensures check > n && check != nbTokens ==> i == Reduce(n, check - 1)
  {
    if check == nbTokens then Last(n)
    else if check <= 0 then Last(n)
    else if check <= n then WalkFromLast(n, check); Walk(n, Last(n), check)
    else WalkFromLastWraps(n, check); Walk(n, Last(n), check)
  }

  /** A click, handled up to (not including) the resolution of the move. */
  datatype Handling =
    | Handled(game: Game, phase: Phase, anchor: Cell, moved: bool)
    | HandlingFailed
    | HandlingCrashed

  /** A click while nothing is picked: the clicked cell becomes the anchor,
      the add buttons are tried, then `token_select_check` is asked (with
      the cached count) whether a token was clicked; if so that token is
      picked and a second click is awaited. On an empty list a non-zero
      answer makes the C code follow a NULL handle. */
  function FirstClick(ops: Ops, g: Game, cell: Cell): (r: Handling)
    ensures r.HandlingFailed? <==> AddButton(ops, g, cell).AddFailed?
    ensures r.Handled? ==> r.anchor == cell
    ensures r.Handled? ==> (r.moved <==> AddButton(ops, g, cell).Added?)
    ensures r.Handled? && !r.moved ==> r.game == g
    ensures r.Handled? ==> r.game == g.(queue := r.game.queue, row := r.game.row)
    ensures r.Handled? ==>
              (r.phase.AwaitingDirection? <==> ops.tokenSelectCheck(g.nbTokens, cell, r.game.row) != 0)
    ensures r.Handled? && r.phase.AwaitingDirection? ==>
              (r.phase.selected.Some? <==> r.game.row != [])
              && (r.phase.selected.Some? ==> r.phase.selected.value in r.game.row)
    ensures r.Handled? && r.phase.AwaitingDirection? && Consistent(g) && !r.moved
            && 1 <= ops.tokenSelectCheck(g.nbTokens, cell, g.row) <= |g.row| ==>
              r.phase.selected == Some(g.row[ops.tokenSelectCheck(g.nbTokens, cell, g.row) - 1])
    ensures r.Handled? && r.moved ==>
              r.game.queue == AddButton(ops, g, cell).queue && r.game.row == AddButton(ops, g, cell).row
    ensures r.Handled? && r.phase.AwaitingDirection? && r.game.row != [] ==>
              r.phase.selected == Some(r.game.row[SelectedPosition(g.nbTokens, |r.game.row|,
                                                   ops.tokenSelectCheck(g.nbTokens, cell, r.game.row))])
    ensures AddButton(ops, g, cell).NoAdd? ==>
              (r.HandlingCrashed? <==>
                 var check := ops.tokenSelectCheck(g.nbTokens, cell, g.row);
                 g.row == [] && check > 0 && check != g.nbTokens)
  {
    match AddButton(ops, g, cell)
    case AddFailed => HandlingFailed
    case NoAdd => Pick(ops, g, cell, false)
    case Added(q, row) => Pick(ops, g.(queue := q, row := row), cell, true)
  }

  /** The token-picking half of a first click, on the game `g` the add
      buttons left behind (whose cached count may be one behind its list). */
  function Pick(ops: Ops, g: Game, cell: Cell, moved: bool): (r: Handling)
    ensures !r.HandlingFailed?
    ensures r.Handled? ==> r.game == g && r.anchor == cell && r.moved == moved
    ensures r.Handled? ==> (r.phase.AwaitingDirection? <==> ops.tokenSelectCheck(g.nbTokens, cell, g.row) != 0)
    ensures r.Handled? && r.phase.AwaitingDirection? && g.row != [] ==>
              r.phase.selected == Some(g.row[SelectedPosition(g.nbTokens, |g.row|, ops.tokenSelectCheck(g.nbTokens, cell, g.row))])
    ensures r.Handled? && r.phase.AwaitingDirection? && g.row == [] ==> r.phase.selected == None
    ensures r.HandlingCrashed? <==>
              var check := ops.tokenSelectCheck(g.nbTokens, cell, g.row);
              g.row == [] && check > 0 && check != g.nbTokens
  {
    var check := ops.tokenSelectCheck(g.nbTokens, cell, g.row);
    if check == 0 then Handled(g, Idle, cell, moved)
    else if g.row != [] then
      Handled(g, AwaitingDirection(Some(g.row[SelectedPosition(g.nbTokens, |g.row|, check)])), cell, moved)
    // The handle is NULL: the shortcut and a walk of zero steps keep it,
    // any positive walk follows it.
    else if check == g.nbTokens || check < 0 then Handled(g, AwaitingDirection(None), cell, moved)
    else HandlingCrashed
  }

  /** A click while a token is picked: a cell directly above the anchor
      groups the picked token's colour to the left, a cell directly below
      groups its shape; any other cell does nothing. Either way the picked
      token is dropped and the anchor is reset. */
  function SecondClick(ops: Ops, g: Game, selected: Option<Token>, anchor: Cell, cell: Cell): (r: Handling)
    ensures r.Handled? && r.phase == Idle && r.anchor == ops.origin
    ensures r.moved <==> cell.col == anchor.col && (cell.lig == anchor.lig - 1 || cell.lig == anchor.lig + 1)
    ensures cell.col == anchor.col && cell.lig == anchor.lig - 1 ==>
              r.game.row == ops.shiftCommonColorLeft(g.row, selected)
    ensures cell.col == anchor.col && cell.lig == anchor.lig + 1 ==>
              r.game.row == ops.shiftCommonShapeLeft(g.row, selected)
    ensures !r.moved ==> r.game == g
    ensures r.game == g.(row := r.game.row)
  {
    if cell.col == anchor.col && cell.lig == anchor.lig - 1 then
      Handled(g.(row := ops.shiftCommonColorLeft(g.row, selected)), Idle, ops.origin, true)
    else if cell.col == anchor.col && cell.lig == anchor.lig + 1 then
      Handled(g.(row := ops.shiftCommonShapeLeft(g.row, selected)), Idle, ops.origin, true)
    else
      Handled(g, Idle, ops.origin, false)
  }

  /** Result of one click: the next state, whether a move was committed and
      the sounds played; or `game_loop` returning 0; or a NULL dereference. */
  datatype StepOutcome =
    | Stepped(state: State, moved: bool, cues: seq<Cue>)
    | LoopFailed
    | NullDereference

  /** A click handled according to the waiting flag, before resolution. */
  function Handle(ops: Ops, s: State, cell: Cell): Handling
  {
    match s.phase
    case Idle => FirstClick(ops, s.game, cell)
    case AwaitingDirection(t) => SecondClick(ops, s.game, t, s.anchor, cell)
  }

  /** One mouse press of `game_loop`: the click is handled according to the
      waiting flag, and a committed move is then resolved. */
  function Step(ops: Ops, s: State, cell: Cell): (r: StepOutcome)
    ensures r.LoopFailed? ==> s.phase.Idle? && s.game.nbTokens < MaxTokens
    ensures s.phase.AwaitingDirection? ==> r.Stepped? && r.state.phase == Idle && r.state.anchor == ops.origin
    ensures r.Stepped? && !r.moved ==> r.state.game == s.game && r.cues == []
    ensures r.Stepped? && r.moved ==>
              && r.state.game.nbTokens == |r.state.game.row|
              && (r.state.game.combo == 0 || r.state.game.combo == s.game.combo + 1)
    ensures r.Stepped? && Consistent(s.game) ==> Consistent(r.state.game)
    ensures r.Stepped? && r.moved ==>
              && Handle(ops, s, cell).Handled?
              && Handle(ops, s, cell).game.score == s.game.score
              && Handle(ops, s, cell).game.combo == s.game.combo
              && r.state.game == Resolve(ops, Handle(ops, s, cell).game).game
              && r.cues == Resolve(ops, Handle(ops, s, cell).game).cues
  {
    match Handle(ops, s, cell)
    case HandlingFailed => LoopFailed
    case HandlingCrashed => NullDereference
    case Handled(g, phase, anchor, moved) =>
      if moved then
        var res := Resolve(ops, g);
        Stepped(State(res.game, phase, anchor), true, res.cues)
      else
        Stepped(State(g, phase, anchor), false, [])
  }

  /** On an empty list, a negative answer of `token_select_check` walks
      zero steps from the NULL handle: nothing is dereferenced and the loop
      waits for a second click holding a NULL token. */
  lemma PickOnEmptyListKeepsNull(ops: Ops, s: State, cell: Cell)
    requires s.phase.Idle? && s.game.row == []
    requires s.game.nbTokens >= MaxTokens || ops.buttonAddCheck(cell) !in {1, 2}
    requires ops.tokenSelectCheck(s.game.nbTokens, cell, s.game.row) < 0
    ensures Step(ops, s, cell).Stepped?
    ensures Step(ops, s, cell).state.phase == AwaitingDirection(None)
  {
  }

  /** A click at full capacity never reaches the add buttons: it cannot make
      the loop fail and cannot insert a token. */
  lemma StepCapacityGuard(ops: Ops, s: State, cell: Cell)
    requires s.phase.Idle? && s.game.nbTokens >= MaxTokens
    ensures !Step(ops, s, cell).LoopFailed?
    ensures Step(ops, s, cell).Stepped? ==> !Step(ops, s, cell).moved && Step(ops, s, cell).state.game == s.game
  {
  }

  /** `game_loop` stops with 0 exactly when an idle click below capacity hits
      an add button whose insertion does not report success. */
  lemma StepFailsOnlyOnAdd(ops: Ops, s: State, cell: Cell)
    ensures Step(ops, s, cell).LoopFailed? <==>
              && s.phase.Idle? && s.game.nbTokens < MaxTokens
              && ((ops.buttonAddCheck(cell) == 1 && ops.addLeft(s.game.queue, s.game.row).code != 1)
                  || (ops.buttonAddCheck(cell) == 2 && ops.addRight(s.game.queue, s.game.row).code != 1))
  {
  }

  /** With insertions that add one token and other operations that do not
      add any, the capacity test keeps the main list within `MAX_TOKENS`. */
  lemma StepKeepsCapacity(ops: Ops, s: State, cell: Cell)
    requires SizeDiscipline(ops)
    requires Consistent(s.game) && |s.game.row| <= MaxTokens
    ensures Step(ops, s, cell).Stepped? ==> |Step(ops, s, cell).state.game.row| <= MaxTokens
  {
  }

  /** When the hit tests answer within their documented ranges and the
      insertions behave, a picked position always names a node: the NULL
      handle of an empty list is never followed. */
  lemma StepNeverDereferencesNull(ops: Ops, s: State, cell: Cell)
    requires DocumentedRanges(ops) && SizeDiscipline(ops)
    requires Consistent(s.game)
    ensures !Step(ops, s, cell).NullDereference?
  {
  }

  /** How a run of clicks ends: the state after the last click with every
      sound played, `game_loop` returning 0, or a NULL dereference. */
  datatype LoopOutcome = Finished(state: State, cues: seq<Cue>) | Failed | Crashed

  /** The integer `game_loop` returns: 0 on error, 1 otherwise. */
  function LoopCode(r: LoopOutcome): (code: int)
    requires !r.Crashed?
    ensures code == 0 || code == 1
    ensures code == 1 <==> r.Finished?
  {
    if r.Finished? then 1 else 0
  }

  /** The clicks processed before the time runs out, one step each; the
      first failing step ends the loop. */
  function Run(ops: Ops, s: State, clicks: seq<Cell>): (r: LoopOutcome)
    ensures r.Finished? && Consistent(s.game) ==> Consistent(r.state.game)
    decreases |clicks|
  {
    if clicks == [] then Finished(s, [])
    else
      match Step(ops, s, clicks[0])
      case LoopFailed => Failed
      case NullDereference => Crashed
      case Stepped(s1, _, cues) =>
        match Run(ops, s1, clicks[1..])
        case Finished(s2, more) => Finished(s2, cues + more)
        case other => other
  }

  /** Continue a run outcome with more clicks. */
  function Continue(ops: Ops, r: LoopOutcome, clicks: seq<Cell>): LoopOutcome
  {
    match r
    case Finished(s1, cues) =>
      (match Run(ops, s1, clicks)
       case Finished(s2, more) => Finished(s2, cues + more)
       case other => other)
    case other => other
  }

  /** Processing `a` then `b` is processing `a + b`: the loop is a fold of
      the step over the clicks, whatever the frames they fall in. */
  lemma {:induction false} RunAppend(ops: Ops, s: State, a: seq<Cell>, b: seq<Cell>)
    ensures Run(ops, s, a + b) == Continue(ops, Run(ops, s, a), b)
    decreases |a|
  {
    if a == [] {
      assert a + b == b;
      if Run(ops, s, b).Finished? {
        assert [] + Run(ops, s, b).cues == Run(ops, s, b).cues;
      }
    } else {
      assert (a + b)[0] == a[0];
      assert (a + b)[1..] == a[1..] + b;
      var st := Step(ops, s, a[0]);
      if st.Stepped? {
        RunAppend(ops, st.state, a[1..], b);
        var r1 := Run(ops, st.state, a[1..]);
        if r1.Finished? {
          var r2 := Run(ops, r1.state, b);
          if r2.Finished? {
            assert st.cues + (r1.cues + r2.cues) == (st.cues + r1.cues) + r2.cues;
          }
        }
      }
    }
  }

  /** Over any number of clicks, a consistent game within capacity stays
      within capacity, given the size behaviour of the board operations. */
  lemma {:induction false} RunKeepsCapacity(ops: Ops, s: State, clicks: seq<Cell>)
    requires SizeDiscipline(ops)
    requires Consistent(s.game) && |s.game.row| <= MaxTokens
    ensures Run(ops, s, clicks).Finished? ==> |Run(ops, s, clicks).state.game.row| <= MaxTokens
    decreases |clicks|
  {
    if clicks != [] {
      StepKeepsCapacity(ops, s, clicks[0]);
      match Step(ops, s, clicks[0])
      case LoopFailed =>
      case NullDereference =>
      case Stepped(s1, _, _) => RunKeepsCapacity(ops, s1, clicks[1..]);
    }
  }

  /** Under the documented hit-test ranges and size behaviour, a session that
      starts consistent never dereferences NULL, so `game_loop` returns 0 or 1. */
  lemma {:induction false} RunNeverCrashes(ops: Ops, s: State, clicks: seq<Cell>)
    requires DocumentedRanges(ops) && SizeDiscipline(ops)
    requires Consistent(s.game)
    ensures !Run(ops, s, clicks).Crashed?
    decreases |clicks|
  {
    if clicks != [] {
      StepNeverDereferencesNull(ops, s, clicks[0]);
      match Step(ops, s, clicks[0])
      case LoopFailed =>
      case NullDereference =>
      case Stepped(s1, _, _) => RunNeverCrashes(ops, s1, clicks[1..]);
    }
  }

  /** A game fresh from `game_init` starts the loop consistent and empty. */
  lemma InitialLoopState(queueAllocated: bool, listAllocated: bool, initQueue: QueueInit)
    requires GameInit(queueAllocated, listAllocated, initQueue).Initialised?
    ensures var s := LoopStart(GameInit(queueAllocated, listAllocated, initQueue).game);
              Consistent(s.game) && s.game.row == [] && s.phase == Idle
  {
  }
}

=== FILE: session.dfy ===
/** The `Game` record of src/threetogo.h and its initialisation `game_init`
    (src/threetogo.c). */
module Session {
  import opened Tokens
  import opened Liste

  /** One game: score, current combo, elapsed time, the cached token count,
      the main list and the supply queue. */
  datatype Game = Game(
    score: int,
    combo: int,
    timer: real,
    nbTokens: int,
    row: Row,
    queue: Row
  )

  /** What `init_queue` reports and the queue it builds. */
  datatype QueueInit = QueueInit(code: int, queue: Row)

  /** Outcome of `game_init`: a failure (return code 0) or a fresh game
      (return code 1). */
  datatype InitOutcome = InitFailed | Initialised(game: Game)

  /** The bookkeeping `game_loop` keeps in step between clicks: the cached
      count is the list's length and the combo counter is not negative. */
  predicate Consistent(g: Game)
  {
    g.nbTokens == |g.row| && g.combo >= 0
  }

  /** `game_init`: the two list allocations and `init_queue` are its only
      ways to fail; otherwise the main list is empty and every counter is 0. */
  function GameInit(queueAllocated: bool, listAllocated: bool, initQueue: QueueInit): (r: InitOutcome)
    ensures r.Initialised? <==> queueAllocated && listAllocated && initQueue.code == 1
    ensures r.Initialised? ==>
              && r.game.score == 0 && r.game.combo == 0 && r.game.timer == 0.0
              && r.game.nbTokens == 0 && r.game.row == []
              && r.game.queue == initQueue.queue
    ensures r.Initialised? ==> Consistent(r.game) && |r.game.row| <= MaxTokens
  {
    if !queueAllocated then InitFailed
    else if !listAllocated then InitFailed
    else if initQueue.code != 1 then InitFailed
    else Initialised(Game(0, 0, 0.0, 0, [], initQueue.queue))
  }

  /** The integer `game_init` returns: 0 on failure, 1 otherwise. */
  function InitCode(r: InitOutcome): (code: int)
    ensures code == 0 || code == 1
    ensures code == 1 <==> r.Initialised?
  {
    if r.Initialised? then 1 else 0
  }
}

=== FILE: tokens.dfy ===
/** Token attributes and board capacity of ThreeToGo (src/threetogo.h).

    The C program stores a colour and a shape as plain `int` codes
    (`RED` .. `YELLOW`, `CIRCLE` .. `DIAMOND`); the model uses one
    enumeration per attribute and the functions below translate to and
    from the codes. */
module Tokens {
  import opened Wrappers

  /** Maximum number of tokens in the main list (`MAX_TOKENS`). */
  const MaxTokens: nat := 16

  datatype Color = Red | Green | Blue | Yellow

  datatype Shape = Circle | Square | Triangle | Diamond

  /** The `int` code the C program uses for a colour. */
  function ColorCode(c: Color): (code: int)
    ensures 0 <= code < 4
  {
    match c
    case Red => 0
    case Green => 1
    case Blue => 2
    case Yellow => 3
  }

  /** The colour a code stands for; exactly the codes 0..3 are colours. */
  function ColorOfCode(code: int): (c: Option<Color>)
    ensures c.Some? <==> 0 <= code < 4
    ensures c.Some? ==> ColorCode(c.value) == code
  {
    if code == 0 then Some(Red)
    else if code == 1 then Some(Green)
    else if code == 2 then Some(Blue)
    else if code == 3 then Some(Yellow)
    else None
  }

  /** The `int` code the C program uses for a shape. */
  function ShapeCode(s: Shape): (code: int)
    ensures 0 <= code < 4
  {
    match s
    case Circle => 0
    case Square => 1
    case Triangle => 2
    case Diamond => 3
  }

  /** The shape a code stands for; exactly the codes 0..3 are shapes. */
  function ShapeOfCode(code: int): (s: Option<Shape>)
    ensures s.Some? <==> 0 <= code < 4
    ensures s.Some? ==> ShapeCode(s.value) == code
  {
    if code == 0 then Some(Circle)
    else if code == 1 then Some(Square)
    else if code == 2 then Some(Triangle)
    else if code == 3 then Some(Diamond)
    else None
  }

  /** Decoding a colour's code gives the colour back, so distinct colours
      have distinct codes. */
  lemma ColorCodeRoundTrip(c: Color)
    ensures ColorOfCode(ColorCode(c)) == Some(c)
  {
  }

  /** Decoding a shape's code gives the shape back. */
  lemma ShapeCodeRoundTrip(s: Shape)
    ensures ShapeOfCode(ShapeCode(s)) == Some(s)
  {
  }

  /** A token of the board. `id` stands for the node's address: two tokens
      of the same colour and shape are still different nodes. */
  datatype Token = Token(id: nat, color: Color, shape: Shape)

  /** The two dimensions along which tokens are chained and aligned. */
  datatype Attribute = ByColor | ByShape

  /** The code of a token's colour or shape. */
  function Key(t: Token, a: Attribute): int
  {
    match a
    case ByColor => ColorCode(t.color)
    case ByShape => ShapeCode(t.shape)
  }
}

=== FILE: wrappers.dfy ===
/** The optional-value wrapper used where the C code would hand back a
    sentinel (an out-of-range code, a NULL pointer). */
module Wrappers {

  /** `None` stands for the absent value. */
  datatype Option<+T> = None | Some(value: T)
}
